=== FILE: README.md ===
# Scenario search app — a Dafny model of its decision logic

The app is a Next.js travel-search front end. A user types a query. The
server action `generateScenariosAction` asks a chat-completion service for
five travel "scenarios". The page is meant to show them as cards, each with
an emoji picked from keywords in its text, and choosing a card runs
`getScenarioResultsAction`, which asks for packages, itineraries and
destinations. As written, the cards read a `text` property that the action
has already projected away; see "## Findings". A collapsible filter panel lets the user pick a companion, a
theme, an age group and a travel type, then re-run the dashboard with them.

The model covers the logic of four files:

- `app/actions.ts` (module `Actions`, file `actions.dfy`):
  - the empty-query check;
  - wrapping the completion reply as a single `text` content item, and the
    type check on that item;
  - fence cleaning, `replace(/```json\s*|```/g, '').trim()`;
  - `JSON.parse`, then the scenario projection;
  - the three error messages, and re-throwing of the completion call's own
    errors.
- `app/scenarios/page.tsx` (module `ScenariosPage`):
  - `safeRender`;
  - `getScenarioEmoji`;
  - the results-visibility test;
  - the results heading and its tags;
  - the state changes of `handleScenarioSelect` and `handleFilterApply`.
- `components/result-view.tsx` (module `ResultView`): `getReason`.
- `components/scenario-filters.tsx` (module `ScenarioFilters`): the filter
  panel's state as a class. It holds four selections, its own pending flag
  and `isOpen`. It has the toggle, apply, clear and cancel handlers, the
  apply button's `disabled` test and the header badge.

Module `JsValue` holds the JavaScript semantics these files rely on:
- truthiness;
- `typeof … === "object"`;
- `??`;
- property lookup;
- `Object.keys`;
- `String(…)`;
- `JSON.stringify`;
- `includes`;
- `join`.

Module `Base` holds `Option` and `Result`.

The completion service (`callOpenAI` in `lib/openai.ts`) is a function
parameter. It maps the prompt messages to `Threw(message)` or to
`Replied(reply)`, where the reply is a string, `null`, or absent content.
`JSON.parse` is also a parameter. It maps a string to `Some(value)`, or to
`None` where it throws. Every promise the source makes about these two
collaborators holds for all such parameters.

The page passes the query filters as a third argument to
`getScenarioResultsAction`. That function takes two parameters, so the
filters never reach the prompt. The model's `SelectScenario` therefore
passes only the query and the scenario.

## Model

| member | source | states |
|---|---|---|
| Actions.TrimStart | app/actions.ts:32 | `trimStart` gives a suffix of the input that is empty or starts with a non-white-space character |
| Actions.TrimStartDropsOnlyWhitespace | app/actions.ts:32 | every character `trimStart` removes is ECMAScript white space |
| Actions.TrimEnd | app/actions.ts:32 | `trimEnd` gives a prefix of the input that is empty or ends with a non-white-space character |
| Actions.TrimEndDropsOnlyWhitespace | app/actions.ts:32 | every character `trimEnd` removes is ECMAScript white space |
| Actions.Trim | app/actions.ts:32 | `trim` gives text with no white space at either end |
| Actions.TrimIsSlice | app/actions.ts:32 | `trim` gives a contiguous slice of the input, and is the identity on text already without edge white space |
| Actions.StripFences | app/actions.ts:32 | the global replacement never lengthens the text |
| Actions.Clean | app/actions.ts:32 | the cleaned reply has no leading or trailing white space and contains no run of three backticks |
| Actions.StrippedHasNoFence | app/actions.ts:32 | no run of three backticks survives the replacement, including runs that the deletions bring together |
| Actions.InfixKeepsNoFence | app/actions.ts:32 | trimming cannot create a run of three backticks |
| Actions.CleanIsIdentity | app/actions.ts:32 | cleaning does not change text that has no backticks and no surrounding white space |
| Actions.StripPlainPrefix | app/actions.ts:32 | a backtick-free prefix passes through the replacement unchanged |
| Actions.TrimStartConcat | app/actions.ts:32 | leading white space of a concatenation is trimmed from the first part, and from the second only when the first is all white space |
| Actions.StripClosingFence | app/actions.ts:32 | a lone "```" is deleted |
| Actions.TrimStartOfBlock | app/actions.ts:32 | after an opening fence, leading white space is consumed up to the body, or up to the closing fence when the body is blank |
| Actions.StripClosedText | app/actions.ts:32 | a backtick-free text followed by a newline and "```" loses only the fence |
| Actions.TrimWithNewline | app/actions.ts:32 | for any text, a trailing newline does not change the trimmed text |
| Actions.CleanFencedBlock | app/actions.ts:32 | "```json\n" + body + "\n```" with a backtick-free body cleans to the trimmed body |
| Actions.GenerateScenarios | app/actions.ts:5-52 | an empty query fails with "Query is required" before the completion service is used; the type check never fails; a completion error is re-thrown unchanged; success means the cleaned reply parsed to an array, mapped to its items' `text` in the same length and order; "Invalid format received from AI" exactly when the reply does not parse to an array; a reply that parses to an array always succeeds; "Query is required" only for an empty query and a re-thrown error only when the completion call threw |
| Actions.GetScenarioResults | app/actions.ts:54-82 | there is no query check and the type check never fails; a completion error is re-thrown unchanged; a parsed reply is returned unmodified; an unparseable reply gives "Invalid format received from AI" |
| Actions.WrapReply | app/actions.ts:14 | the reply is wrapped as a single content item of type "text" that carries it, so the check at :25-28 and :63-66 always passes |
| Actions.ParseReply | app/actions.ts:32-34 | a string reply reaches `JSON.parse` only after cleaning, so without fences or edge white space; null content parses to null, absent content fails to parse |
| Actions.ScenarioItemText | app/actions.ts:36-41 | an object with a `text` property becomes the value of its first such field; anything without one, arrays and primitives included, passes through unchanged |
| Actions.FencedReplyReachesParser | app/actions.ts:68-72 | a fenced JSON reply reaches `JSON.parse` as its trimmed body |
| JsValue.Lookup | app/scenarios/page.tsx:19-21 | a property read gives undefined when the property is missing, and otherwise the value of its first occurrence |
| JsValue.Entries | app/scenarios/page.tsx:23-24 | an object's entries are its fields in order; an array's are its indices paired with its items |
| JsValue.Keys | app/scenarios/page.tsx:23 | `Object.keys` lists the entries' keys in order |
| JsValue.DigitChar | app/scenarios/page.tsx:16 | a decimal digit is printed as the character for that digit |
| JsValue.NatToString | app/scenarios/page.tsx:16 | a natural number prints as a non-empty string of digits, with no leading zero unless the number is zero |
| JsValue.DecimalRoundTrip | app/scenarios/page.tsx:16 | the printed numeral reads back as the number printed, so distinct numbers print differently |
| JsValue.NumberToString | app/scenarios/page.tsx:16 | `String(n)` is non-empty and starts with "-" exactly for negative numbers; the rest is the decimal numeral of the magnitude, without leading zeros |
| JsValue.EscapePlainText | components/result-view.tsx:26 | `JSON.stringify` writes text without quotes, backslashes or control characters unchanged between the quotes |
| JsValue.PresentMembers | components/result-view.tsx:26 | dropping undefined-valued properties never adds members, and keeps every member when no value is undefined |
| JsValue.PresentMembersKeepsDefined | components/result-view.tsx:26 | the members of properties with defined values are kept, and only those |
| JsValue.Stringify | components/result-view.tsx:26 | the JSON of an array is bracketed by `[` `]`, and of an object by `{` `}` |
| ResultView.GetReason | components/result-view.tsx:24-29 | a non-null object's `text` is returned whenever it is neither null nor undefined, including the empty string; otherwise the object's JSON; null gives "null", undefined gives "undefined", numbers and booleans give their `String` form, and a string is returned unchanged; an empty result only comes from an empty string or an empty `text` |
| ResultView.ReasonWithoutTextIsJson | components/result-view.tsx:26 | an object without `text` shows as its JSON, e.g. `{"k":null}` |
| ScenarioFilters.OrAbsent | components/scenario-filters.tsx:44-47 | an empty selection is passed on as absent:  the value is absent exactly for "" and otherwise the selection itself |
| ScenarioFilters.Toggled | components/scenario-filters.tsx:107 | clicking an option selects it, or sets its category to "" when it is already selected; the other three categories and `isOpen` are unchanged |
| ScenarioFilters.Emitted | components/scenario-filters.tsx:43-48 | each category's value is handed on exactly when the selection is non-empty, and then as it is |
| ScenarioFilters.AfterApply | components/scenario-filters.tsx:49-54 | after apply, every category is "" and the panel is closed |
| ScenarioFilters.Cleared | components/scenario-filters.tsx:58-63 | after clear, every category is "" and `isOpen` is as before |
| ScenarioFilters.ApplyDisabled | components/scenario-filters.tsx:186 | while loading the button is disabled; otherwise it is disabled exactly when applying would hand on no filter |
| ScenarioFilters.Indicator | components/scenario-filters.tsx:75 | the badge is "!" exactly when some filter would be handed on, and "+" otherwise |
| ScenarioFilters.ToggledStaysValid | components/scenario-filters.tsx:6-23 | toggling an option of the category's vocabulary keeps every category at "" or one of its own options |
| ScenarioFilters.ToggleTwiceRestores | components/scenario-filters.tsx:107 | clicking the same option twice restores a category that held nothing or that option |
| ScenarioFilters.ResetShowsNothingSelected | components/scenario-filters.tsx:49-63 | after apply or clear the badge is "+" and the apply button is disabled |
| ScenarioFilters.FilterPanel.constructor | components/scenario-filters.tsx:32-38 | the panel starts with nothing selected, closed, and not pending |
| ScenarioFilters.FilterPanel.Toggle | components/scenario-filters.tsx:104-107 | an option click changes the state as `Toggled` says and keeps every category within its vocabulary |
| ScenarioFilters.FilterPanel.ToggleOpen | components/scenario-filters.tsx:70 | the header button flips `isOpen` and changes nothing else |
| ScenarioFilters.FilterPanel.Cancel | components/scenario-filters.tsx:179 | cancel closes the panel and keeps the selections |
| ScenarioFilters.FilterPanel.Apply | components/scenario-filters.tsx:40-56 | with a callback, apply hands on `Emitted` of the old state, then resets and closes the panel; without one, nothing is handed on and nothing changes |
| ScenarioFilters.FilterPanel.Clear | components/scenario-filters.tsx:58-63 | clear empties all four selections and keeps `isOpen` |
| ScenarioFilters.FilterPanel.IsApplyDisabled | components/scenario-filters.tsx:186 | the apply button is disabled exactly when the external flag is set or no filter would be handed on (the local flag is never set) |
| ScenarioFilters.FilterPanel.HeaderIndicator | components/scenario-filters.tsx:75 | the badge is "!" exactly when a filter is selected, and "+" otherwise |
| ScenariosPage.SafeRender | app/scenarios/page.tsx:13-30 | null and undefined give "", and strings are returned unchanged; numbers and booleans give their `String`; for an object or array, a truthy `text` wins over a truthy `summary`, which wins over a truthy `description`; without those, a non-empty flat object gives its keys joined by ", ", and anything else gives its JSON; only such a property can give a non-string |
| ScenariosPage.IndexKeys | app/scenarios/page.tsx:23 | an array of length n has n index keys, and key i is the decimal numeral of i, without leading zeros |
| ScenariosPage.IndexKeysDistinct | app/scenarios/page.tsx:23 | distinct indices give distinct keys |
| ScenariosPage.SafeRenderFlatArray | app/scenarios/page.tsx:22-25 | a non-empty array of non-objects shows its indices "0, 1, …", not its items |
| ScenariosPage.SafeRenderJoinsKeys | app/scenarios/page.tsx:22-25 | a flat two-property object without display names shows its keys in order, whatever the values |
| ScenariosPage.SafeRenderCountries | app/scenarios/page.tsx:22-25 | `{Italy: true, Switzerland: true}` shows as "Italy, Switzerland" |
| ScenariosPage.SafeRenderEmptyContainers | app/scenarios/page.tsx:24-27 | an empty object shows as "{}" and an empty array as "[]" |
| ScenariosPage.EmptyTextRendersDifferently | app/scenarios/page.tsx:19 | an empty `text` is skipped by `safeRender` (which shows the key "text") but kept by `getReason` (which shows "") |
| ScenariosPage.FirstMatch | app/scenarios/page.tsx:197-206 | the result is the default or one rule's symbol; it is the default when no rule matches; otherwise it comes from a matching rule no later than any matching rule |
| ScenariosPage.GetScenarioEmoji | app/scenarios/page.tsx:196-207 | the emoji is ✈️ or one of the nine rule symbols |
| ScenariosPage.FirstMatchingRuleWins | app/scenarios/page.tsx:197-205 | the first rule in chain order with a keyword in the text decides the emoji |
| ScenariosPage.FirstMatchDefaultIff | app/scenarios/page.tsx:197-206 | for any chain whose symbols differ from the default, the default is chosen exactly when no rule matches |
| ScenariosPage.DefaultIffNoKeyword | app/scenarios/page.tsx:206 | ✈️ is shown exactly when no keyword of any rule occurs |
| ScenariosPage.CardTextAsWritten | app/scenarios/page.tsx:208-213 | a card reads `scenario.text`, which is undefined for anything but an object |
| ScenariosPage.ProjectedScenarioLosesText | app/scenarios/page.tsx:208 | a scenario projected by the action to its `text` string has no `text` of its own, so the card reads undefined |
| ScenariosPage.CardText | app/scenarios/page.tsx:208-213 | corrected reading: a string scenario is its own text, anything else its `text` |
| ScenariosPage.ProjectedScenarioKeepsText | app/scenarios/page.tsx:208-213 | with the corrected reading, a projected scenario shows the same text as the item it came from |
| ScenariosPage.BudgetBeforeFamily | app/scenarios/page.tsx:197-198 | a text containing both 가성비 and 가족 gets 💰 |
| ScenariosPage.Tags | app/scenarios/page.tsx:253-260 | there is one tag per set filter; the value of each set category sits at its rank among the set categories in companion, theme, age, travel-type order, which fixes both contents and order; no tag is empty, and there are none exactly when no filter is set |
| ScenariosPage.TitleHeading | app/scenarios/page.tsx:249-267 | a selected scenario heads the results whatever the filters; otherwise the applied filters' tags when any is set, then the URL filters' tags, then the query |
| ScenariosPage.AppliedSelectionsBecomeTags | app/scenarios/page.tsx:251-257 | after applying from an enabled panel, the heading's tags are the non-empty selections in companion, theme, age, travel-type order |
| ScenariosPage.PageState.constructor | app/scenarios/page.tsx:41-49 | the page starts with no selection, no results and no applied filters; the results are not loading and no filter is pending |
| ScenariosPage.PageState.ResultsVisible | app/scenarios/page.tsx:242 | results show only when not loading; when not loading they show for truthy scenario results, and for truthy dashboard results with no scenario selected, and in no other case |
| ScenariosPage.PageState.VisibleHasData | app/scenarios/page.tsx:242 | when results show, there are truthy scenario results or an object whose `results` property is truthy |
| ScenariosPage.PageState.SelectScenario | app/scenarios/page.tsx:92-105 | choosing the scenario already selected changes nothing; otherwise it is selected, its results are stored when the action succeeds and kept when it throws, and loading ends |
| ScenariosPage.PageState.ApplyFilters | app/scenarios/page.tsx:111-132 | the selection is dropped and the filters are kept for the heading; a truthy dashboard replaces the initial data and clears the scenario results; pending and loading end; with any filter set, the heading shows its tags; when the dashboard call fails, earlier scenario results stay on show under the new heading |

## Findings

| source | as written | input that shows it | evidently intended | confidence | as-written member | corrected member |
|---|---|---|---|---|---|---|
| app/scenarios/page.tsx:208 | each card passes `scenario.text` to `getScenarioEmoji` and to the click handler, but `app/actions.ts:36-41` has already turned each `{id, text}` item into its `text` string, so `scenario.text` is undefined and `text.includes` at :197 throws | the reply `[{"id":"1","text":"가성비 여행"}]`: the action returns `["가성비 여행"]`, and the card reads `"가성비 여행".text`, which is undefined | the card uses the scenario string itself, showing 💰 and selecting "가성비 여행" | medium; not executed | ScenariosPage.ProjectedScenarioLosesText | ScenariosPage.ProjectedScenarioKeepsText |

## Left out

- Tool selection, fan-out over several services and normalisation of their
  answers are not in the repository's code: `app/scenarios/page.tsx:4`
  imports `getSearchSummaryAction` and `getInitialDashboardAction`, which
  `app/actions.ts` does not define. `lib/mcp.ts` and `setup_ai_rules.py` are
  not part of this model.
- The network and I/O are left out: `callOpenAI`'s HTTP request, the API key,
  and `console.error` logging. The completion result is a parameter, limited
  to a string, `null`, or absent content.
- `JSON.parse` is left out. It is a parameter, so the model proves nothing
  about which texts parse.
- Numbers are integers of magnitude below 10^21, where `String` prints plain
  decimal. Fractions, exponent notation, NaN and the infinities are left out.
- Objects are lists of fields in enumeration order, and their keys are
  assumed distinct. Integer-like keys, which JavaScript enumerates first, are
  not reordered. Functions, symbols, `toJSON` and prototype properties are
  left out.
- The page's initial `useEffect` is left out, with the `isLoadingInit` flag
  that starts true and shows the full-screen loader. Also left out are the concurrent fetch of
  scenarios and dashboard, the summary, the error state and the redirect
  without a query. `getInitialDashboardAction` and `getSearchSummaryAction`
  are not defined in `app/actions.ts`.
- ScenariosPage.PageState.ApplyFilters: the dashboard call's outcome is a
  parameter, `None` when it throws. Interleaving with other asynchronous
  handlers is not modelled; each handler runs to completion.
- ScenariosPage.PageState.SelectScenario: runs to completion without
  interleaving. Only the URL query and the scenario are passed to the action.
- JSX rendering, styling and the `key` props are left out. The heading is a
  `Heading` value, not markup.
- ScenarioFilters.FilterPanel.Toggle: the caller must pass an option of the
  category's vocabulary, because the buttons only offer those.
- Strings are sequences of Unicode scalar values, not UTF-16 code units, so
  lone surrogates, which `JSON.parse` can produce, are not represented.
- GetScenarioEmoji is modelled on a string argument. The card markup that
  calls it is not modelled beyond the card's text (`CardTextAsWritten`,
  `CardText`), and neither is the exception when that text is undefined.
- JsValue.Stringify: states only the brackets of arrays and objects and the
  escape-free case of strings. The full text is given by its definition.

=== FILE: actions.dfy ===
/**
 * The two server actions of app/actions.ts: they ask the completion service
 * for JSON, strip markdown code fences from the reply, parse it and, for
 * scenarios, project every array item to its `text`.
 *
 * The completion service (`callOpenAI`) and `JSON.parse` are parameters: the
 * first maps the prompt messages to what the call produced, the second maps a
 * string to the parsed value or to None when it throws.
 */
module Actions {
  import opened Base
  import opened JsValue

  // ---------------------------------------------------------------------------
  // Whitespace, trimming and the fence pattern /```json\s*|```/g
  // ---------------------------------------------------------------------------

  /**
   * The characters JavaScript's `\s` and `String.prototype.trim` treat as
   * white space: the WhiteSpace and LineTerminator code points of ECMAScript.
   */
  predicate IsWhitespace(c: char) {
    c == '\t' || c == '\n' || c == '\U{B}' || c == '\U{C}' || c == '\r' || c == ' ' ||
    c == '\U{A0}' || c == '\U{1680}' || ('\U{2000}' <= c <= '\U{200A}') ||
    c == '\U{2028}' || c == '\U{2029}' || c == '\U{202F}' || c == '\U{205F}' ||
    c == '\U{3000}' || c == '\U{FEFF}'
  }

  /** `s` neither starts nor ends with white space. */
  predicate NoEdgeWhitespace(s: string) {
    s == [] || (!IsWhitespace(s[0]) && !IsWhitespace(s[|s| - 1]))
  }

  /** A run of three backticks starts at index `i` of `s`. */
  predicate FenceAt(s: string, i: int) {
    0 <= i && i + 3 <= |s| && s[i] == '`' && s[i + 1] == '`' && s[i + 2] == '`'
  }

  /** `s` contains no run of three backticks. */
  predicate NoFence(s: string) {
    forall i | 0 <= i < |s| :: !FenceAt(s, i)
  }

  predicate NoBacktick(s: string) {
    forall i :: 0 <= i < |s| ==> s[i] != '`'
  }

  /** `s.trimStart()`: the longest suffix of `s` that does not start with white space. */
  function TrimStart(s: string): (r: string)
    ensures |r| <= |s| && r == s[|s| - |r|..]
    ensures r == [] || !IsWhitespace(r[0])
  {
    if s != [] && IsWhitespace(s[0]) then TrimStart(s[1..]) else s
  }

  /** `trimStart` removes white space only. */
  lemma {:induction false} TrimStartDropsOnlyWhitespace(s: string)
    ensures forall i :: 0 <= i < |s| - |TrimStart(s)| ==> IsWhitespace(s[i])
    decreases |s|
  {
    if s != [] && IsWhitespace(s[0]) {
      TrimStartDropsOnlyWhitespace(s[1..]);
      assert forall i :: 1 <= i < |s| ==> s[i] == s[1..][i - 1];
    }
  }

  /** `s.trimEnd()`: the longest prefix of `s` that does not end with white space. */
  function TrimEnd(s: string): (r: string)
    ensures |r| <= |s| && r == s[..|r|]
    ensures r == [] || !IsWhitespace(r[|r| - 1])
  {
    if s != [] && IsWhitespace(s[|s| - 1]) then TrimEnd(s[..|s| - 1]) else s
  }

  /** `trimEnd` removes white space only. */
  lemma {:induction false} TrimEndDropsOnlyWhitespace(s: string)
    ensures forall i :: |TrimEnd(s)| <= i < |s| ==> IsWhitespace(s[i])
    decreases |s|
  {
    if s != [] && IsWhitespace(s[|s| - 1]) {
      TrimEndDropsOnlyWhitespace(s[..|s| - 1]);
    }
  }

  /** `s.trim()`: `s` without its leading and trailing white space. */
  function Trim(s: string): (r: string)
    ensures NoEdgeWhitespace(r)
  {
    TrimEnd(TrimStart(s))
  }

  /** `trim` cuts a contiguous slice out of `s`, and leaves already-trimmed text alone. */
  lemma {:induction false} TrimIsSlice(s: string)
    ensures NoEdgeWhitespace(s) ==> Trim(s) == s
    ensures |s| - |TrimStart(s)| + |Trim(s)| <= |s|
    ensures Trim(s) == s[|s| - |TrimStart(s)|..|s| - |TrimStart(s)| + |Trim(s)|]
  {
    var t := TrimStart(s);
    var a := |s| - |t|;
    assert t == s[a..];
    assert Trim(s) == t[..|Trim(s)|];
    assert t[..|Trim(s)|] == s[a..a + |Trim(s)|];
  }

  /** `s` starts with a fence followed by `json`: the first alternative of the pattern. */
  predicate JsonFenceAt0(s: string) {
    FenceAt(s, 0) && |s| >= 7 && s[3] == 'j' && s[4] == 's' && s[5] == 'o' && s[6] == 'n'
  }

  /**
   * `s.replace(/```json\s*|```/g, '')`. The pattern is tried at each position
   * from the left; the first alternative wins where both match, `\s*` is
   * greedy, and scanning resumes after each deleted match.
   */
  function StripFences(s: string): (r: string)
    ensures |r| <= |s|
    decreases |s|
  {
    if FenceAt(s, 0) then
      if JsonFenceAt0(s) then StripFences(TrimStart(s[7..]))
      else StripFences(s[3..])
    else if s == [] then []
    else [s[0]] + StripFences(s[1..])
  }

  /** `rawText.replace(/```json\s*|```/g, '').trim()` (app/actions.ts:32 and :70). */
  function Clean(rawText: string): (r: string)
    ensures NoEdgeWhitespace(r)
    ensures NoFence(r)
  {
    var stripped := StripFences(rawText);
    StrippedHasNoFence(rawText);
    var r := Trim(stripped);
    TrimIsSlice(stripped);
    var a := |stripped| - |TrimStart(stripped)|;
    InfixKeepsNoFence(stripped, a, a + |r|);
    r
  }

  /** Stripping starts with the first character when that is not a backtick. */
  lemma StripKeepsHead(t: string)
    requires t != [] && t[0] != '`'
    ensures StripFences(t) == [t[0]] + StripFences(t[1..])
  {
  }

  /** No run of three backticks survives the global replacement. */
  lemma {:induction false} StrippedHasNoFence(s: string)
    ensures NoFence(StripFences(s))
    decreases |s|
  {
    if FenceAt(s, 0) {
      if JsonFenceAt0(s) {
        StrippedHasNoFence(TrimStart(s[7..]));
      } else {
        StrippedHasNoFence(s[3..]);
      }
    } else if s != [] {
      var u := s[1..];
      var tail := StripFences(u);
      var r := StripFences(s);
      assert r == [s[0]] + tail;
      StrippedHasNoFence(u);
      // The kept backtick cannot be followed by two more in the output: the
      // input had no run of three at index 0, so the output's next characters
      // are u's own, and one of the first two is not a backtick.
      if s[0] == '`' && |u| >= 2 {
        if u[0] != '`' {
          StripKeepsHead(u);
        } else {
          assert u[1] != '`';
          StripKeepsHead(u[1..]);
          assert u[1..][1..] == u[2..];
          assert tail == [u[0]] + ([u[1]] + StripFences(u[2..]));
        }
      }
      forall i | FenceAt(r, i) ensures false {
        if i > 0 {
          assert r[i] == tail[i - 1] && r[i + 1] == tail[i] && r[i + 2] == tail[i + 1];
          assert FenceAt(tail, i - 1);
        }
      }
    }
  }

  /** A slice of a string without runs of three backticks has none either. */
  lemma InfixKeepsNoFence(s: string, a: int, b: int)
    requires NoFence(s)
    requires 0 <= a <= b <= |s|
    ensures NoFence(s[a..b])
  {
    forall i | FenceAt(s[a..b], i) ensures false {
      assert FenceAt(s, a + i);
    }
  }

  /** On text without backticks or surrounding white space cleaning changes nothing. */
  lemma CleanIsIdentity(s: string)
    requires NoBacktick(s) && NoEdgeWhitespace(s)
    ensures Clean(s) == s
  {
    StripPlainPrefix(s, "");
    assert s + "" == s;
  }

  /** A backtick-free prefix is copied through unchanged. */
  lemma {:induction false} StripPlainPrefix(p: string, t: string)
    requires NoBacktick(p)
    ensures StripFences(p + t) == p + StripFences(t)
    decreases |p|
  {
    if p == [] {
      assert p + t == t;
    } else {
      assert (p + t)[0] == p[0];
      assert (p + t)[1..] == p[1..] + t;
      StripKeepsHead(p + t);
      StripPlainPrefix(p[1..], t);
      assert p == [p[0]] + p[1..];
    }
  }

  /** Leading white space is trimmed across a concatenation. */
  lemma {:induction false} TrimStartConcat(x: string, y: string)
    ensures TrimStart(x + y) == if TrimStart(x) == [] then TrimStart(y) else TrimStart(x) + y
    decreases |x|
  {
    if x == [] {
      assert x + y == y;
    } else {
      assert (x + y)[0] == x[0];
      if IsWhitespace(x[0]) {
        assert (x + y)[1..] == x[1..] + y;
        assert TrimStart(x + y) == TrimStart(x[1..] + y);
        assert TrimStart(x) == TrimStart(x[1..]);
        TrimStartConcat(x[1..], y);
      } else {
        assert TrimStart(x + y) == x + y;
        assert TrimStart(x) == x;
      }
    }
  }

  /** A trailing white-space character is trimmed away. */
  lemma TrimEndDropsWhitespace(y: string, c: char)
    requires IsWhitespace(c)
    ensures TrimEnd(y + [c]) == TrimEnd(y)
  {
    assert (y + [c])[..|y|] == y;
  }

  /** An opening "```json" is deleted together with the white space after it. */
  lemma StripOpeningFence(w: string)
    ensures StripFences("```json" + w) == StripFences(TrimStart(w))
  {
    var s := "```json" + w;
    assert JsonFenceAt0(s);
    assert s[7..] == w;
  }

  /** A lone closing fence is deleted. */
  lemma StripClosingFence()
    ensures StripFences("```") == []
  {
    assert FenceAt("```", 0) && !JsonFenceAt0("```");
    assert "```"[3..] == [];
  }

  /** Leading white space goes, up to the body or, for a blank body, up to the fence. */
  lemma TrimStartOfBlock(c: char, body: string, fence: string)
    requires IsWhitespace(c) && fence != [] && !IsWhitespace(fence[0])
    ensures TrimStart([c] + (body + ([c] + fence))) ==
            if TrimStart(body) == [] then fence else TrimStart(body) + ([c] + fence)
  {
    var close := [c] + fence;
    assert TrimStart([c] + (body + close)) == TrimStart(body + close) by {
      assert TrimStart([c]) == [];
      TrimStartConcat([c], body + close);
    }
    TrimStartConcat(body, close);
    assert TrimStart(close) == fence by {
      assert TrimStart([c]) == [];
      TrimStartConcat([c], fence);
    }
  }

  /** A backtick-free text followed by a newline and a closing fence loses just the fence. */
  lemma StripClosedText(b: string)
    requires NoBacktick(b)
    ensures StripFences(b + "\n```") == b + "\n"
  {
    var nl := "\n";
    var b' := b + nl;
    assert NoBacktick(b');
    assert b + "\n```" == b' + "```";
    StripPlainPrefix(b', "```");
    StripClosingFence();
  }

  /** A trailing newline does not change the trimmed text. */
  lemma TrimWithNewline(b: string)
    ensures Trim(b + "\n") == Trim(b)
  {
    TrimStartConcat(b, "\n");
    if TrimStart(b) != [] {
      TrimEndDropsWhitespace(TrimStart(b), '\n');
    }
  }

  /** A fenced JSON block, as the completion service often sends it, cleans to its trimmed body. */
  lemma CleanFencedBlock(body: string)
    requires NoBacktick(body)
    ensures Clean("```json\n" + body + "\n```") == Trim(body)
  {
    var close := "\n```";
    var w := "\n" + (body + close);
    assert "```json\n" + body + "\n```" == "```json" + w;
    assert close == ['\n'] + "```";
    assert w == ['\n'] + (body + (['\n'] + "```"));
    StripOpeningFence(w);
    TrimStartOfBlock('\n', body, "```");
    var b := TrimStart(body);
    if b == [] {
      StripClosingFence();
    } else {
      assert forall i :: 0 <= i < |b| ==> b[i] == body[|body| - |b| + i];
      StripClosedText(b);
      TrimWithNewline(b);
    }
  }

  // ---------------------------------------------------------------------------
  // The completion call and the two actions
  // ---------------------------------------------------------------------------

  datatype Message = Message(role: string, content: string)

  /** What `choices[0].message.content` held: a string, null, or nothing at all. */
  datatype Reply = Text(text: string) | NullContent | NoContent

  /** The outcome of `callOpenAI`: it threw an error with this message, or it returned a reply. */
  datatype Completion = Threw(message: string) | Replied(reply: Reply)

  /** The errors the two actions throw to their caller. */
  datatype ActionError =
    | QueryRequired             // "Query is required"
    | UnexpectedResponseType    // "Unexpected response type from MCP server"
    | InvalidFormat             // "Invalid format received from AI"
    | Upstream(message: string) // the completion call's own error, re-thrown as it was

  /** The completion service, as a function of the messages sent to it. */
  type Completer = seq<Message> -> Completion

  /** `JSON.parse` on a string: the parsed value, or None where it throws. */
  type Parser = string -> Option<Value>

  /** One element of the `content` list the actions build around the reply. */
  datatype ContentItem = ContentItem(kind: string, text: Reply)

  /** `{ content: [{ type: "text", text: openAiResponse }] }`. */
  function WrapReply(reply: Reply): (r: seq<ContentItem>)
    ensures |r| == 1
    // the first item, the one the actions inspect, is always text and carries the reply
    ensures r[0].kind == "text" && r[0].text == reply
  {
    [ContentItem("text", reply)]
  }

  /**
   * `JSON.parse(cleaned)`: a string reply is cleaned first; any other content
   * is passed on as it is and converted to a string by `JSON.parse` itself,
   * so null parses as `"null"` and undefined as `"undefined"`, which throws.
   */
  function ParseReply(reply: Reply, parse: Parser): (r: Option<Value>)
    // the parser sees a string reply only after cleaning, so without fences or edge white space
    ensures reply.Text? ==> r == parse(Clean(reply.text)) &&
                            NoFence(Clean(reply.text)) && NoEdgeWhitespace(Clean(reply.text))
    // null content parses to null, absent content fails to parse
    ensures reply.NullContent? ==> r == Some(Null)
    ensures reply.NoContent? ==> r == None
  {
    match reply
    case Text(t) => parse(Clean(t))
    case NullContent => Some(Null)
    case NoContent => None
  }

  /** The instructions sent with the scenario request. */
  const ScenarioInstructions: string := "You are an AI that generates travel scenario titles. Return a JSON array of exactly 5 objects, each with an 'id' (string) and 'text' (string) describing a travel scenario in Korean."

  /** The instructions sent with the recommendation request. */
  const ResultsInstructions: string := "You are an AI that provides travel recommendations. Return a JSON object with exactly three keys: 'packages', 'itineraries', and 'destinations'.\n\n'packages' should be an array of objects, each containing: \n- product_name (string): name of the travel package,\n- schedule_summary (string): brief summary of the schedule,\n- flight_info (string): flight details,\n- price (string): price information,\n- reason (string): why this package is recommended.\n\n'itineraries' should be an array of objects, each containing: \n- title (string): itinerary title,\n- reason (string): why this itinerary is recommended,\n- days (array): each day object with day_title (string) and detail (string).\n\n'destinations' should be an array of objects, each containing: \n- name (string): destination name,\n- reason (string): why this destination is recommended.\n\nOnly output the JSON object, no extra text, in Korean."

  function ScenarioPrompt(query: string): seq<Message> {
    [ Message("system", ScenarioInstructions),
      Message("user", "Generate 5 travel scenario titles for the query: \"" + query + "\"") ]
  }

  function ResultsPrompt(userQuery: string, selectedScenario: string): seq<Message> {
    [ Message("system", ResultsInstructions),
      Message("user", "Based on the travel query \"" + userQuery + "\" and the selected scenario \"" + selectedScenario + "\", provide travel packages, itineraries, and destination recommendations.") ]
  }

  /** The projection applied to each parsed scenario: an object with a `text` property becomes that property. */
  function ScenarioItemText(item: Value): (r: Value)
    // an object with a `text` property becomes the value of its first such field
    ensures item.Obj? ==>
              forall i :: (0 <= i < |item.fields| && item.fields[i].key == "text" &&
                           AbsentBefore(item.fields, "text", i)) ==> r == item.fields[i].val
    // anything else, arrays and primitives included, passes through unchanged
    ensures !HasKey(item, "text") ==> r == item
  {
    if IsObjectLike(item) && HasKey(item, "text") then Get(item, "text") else item
  }

  /** The reply the completion service gives to the scenario prompt, parsed after cleaning. */
  function ParsedScenarios(query: string, complete: Completer, parse: Parser): Option<Value>
    requires complete(ScenarioPrompt(query)).Replied?
  {
    ParseReply(complete(ScenarioPrompt(query)).reply, parse)
  }

  /** `generateScenariosAction(query)`. */
  function GenerateScenarios(query: string, complete: Completer, parse: Parser): (r: Result<seq<Value>, ActionError>)
    // an empty query is refused before the completion service is asked
    ensures query == "" ==> r == Failure(QueryRequired)
    // the reply is always wrapped as text, so its type check never fails
    ensures r != Failure(UnexpectedResponseType)
    // an error of the completion call reaches the caller unchanged
    ensures query != "" && complete(ScenarioPrompt(query)).Threw? ==>
              r == Failure(Upstream(complete(ScenarioPrompt(query)).message))
    // success means the cleaned reply parsed to an array, projected item by item in order
    ensures r.Success? ==>
              && query != ""
              && complete(ScenarioPrompt(query)).Replied?
              && ParsedScenarios(query, complete, parse).Some?
              && ParsedScenarios(query, complete, parse).value.Arr?
              && var items := ParsedScenarios(query, complete, parse).value.items;
                 |r.value| == |items| &&
                 forall i :: 0 <= i < |items| ==> r.value[i] == ScenarioItemText(items[i])
    // a reply that does not parse, or parses to something other than an array, is an invalid format
    ensures r == Failure(InvalidFormat) <==>
              && query != ""
              && complete(ScenarioPrompt(query)).Replied?
              && !(ParsedScenarios(query, complete, parse).Some? && ParsedScenarios(query, complete, parse).value.Arr?)
    // a reply that parses to an array always succeeds
    ensures query != "" && complete(ScenarioPrompt(query)).Replied? &&
            ParsedScenarios(query, complete, parse).Some? && ParsedScenarios(query, complete, parse).value.Arr? ==>
              r.Success?
    // each error has its own cause
    ensures r == Failure(QueryRequired) ==> query == ""
    ensures r.Failure? && r.error.Upstream? ==> complete(ScenarioPrompt(query)).Threw?
  {
    if query == "" then Failure(QueryRequired)
    else
      match complete(ScenarioPrompt(query))
      case Threw(message) => Failure(Upstream(message))
      case Replied(reply) =>
        var item := WrapReply(reply)[0];
        if item.kind != "text" then Failure(UnexpectedResponseType)
        else
          match ParseReply(item.text, parse)
          case Some(Arr(items)) =>
            Success(seq(|items|, i requires 0 <= i < |items| => ScenarioItemText(items[i])))
          case _ => Failure(InvalidFormat)
  }

  /** `getScenarioResultsAction(user_query, selected_scenario)`. */
  function GetScenarioResults(userQuery: string, selectedScenario: string, complete: Completer, parse: Parser)
    : (r: Result<Value, ActionError>)
    // there is no query check here, and the type check never fails
    ensures r != Failure(QueryRequired) && r != Failure(UnexpectedResponseType)
    // an error of the completion call reaches the caller unchanged
    ensures complete(ResultsPrompt(userQuery, selectedScenario)).Threw? ==>
              r == Failure(Upstream(complete(ResultsPrompt(userQuery, selectedScenario)).message))
    // otherwise the parsed value is returned as it is, or the reply did not parse
    ensures complete(ResultsPrompt(userQuery, selectedScenario)).Replied? ==>
              var parsed := ParseReply(complete(ResultsPrompt(userQuery, selectedScenario)).reply, parse);
              (parsed.Some? ==> r == Success(parsed.value)) &&
              (parsed.None? ==> r == Failure(InvalidFormat))
  {
    match complete(ResultsPrompt(userQuery, selectedScenario))
    case Threw(message) => Failure(Upstream(message))
    case Replied(reply) =>
      var item := WrapReply(reply)[0];
      if item.kind != "text" then Failure(UnexpectedResponseType)
      else
        match ParseReply(item.text, parse)
        case Some(parsed) => Success(parsed)
        case None => Failure(InvalidFormat)
  }

  /** A reply sent as a fenced JSON block reaches `JSON.parse` as its trimmed body. */
  lemma FencedReplyReachesParser(body: string, parse: Parser)
    requires NoBacktick(body)
    ensures ParseReply(Text("```json\n" + body + "\n```"), parse) == parse(Trim(body))
  {
    CleanFencedBlock(body);
  }
}

=== FILE: base.dfy ===
/** Optional values and outcomes that may carry a thrown error. */
module Base {
  datatype Option<+T> = None | Some(value: T)

  datatype Result<+T, +E> = Success(value: T) | Failure(error: E)
}

=== FILE: js_value.dfy ===
/**
 * JavaScript values as the app sees them (JSON payloads from the completion
 * service and React state), together with the language operations the app
 * applies to them: truthiness, `typeof`, property lookup, `Object.keys`,
 * `String(...)`, `JSON.stringify`, `String.prototype.includes` and `join`.
 */
module JsValue {
  import opened Base

  /** From this magnitude on, `String(n)` switches to exponent notation. */
  const NumberBound: int := 1_000_000_000_000_000_000_000

  /** The numbers of the model: integral values printed in plain decimal. */
  type Integral = n: int | -NumberBound < n < NumberBound

  /**
   * A JavaScript value. An object lists its own enumerable properties in
   * enumeration order (the order `Object.keys` and `JSON.stringify` use).
   */
  datatype Value =
    | Null
    | Undefined
    | Bool(b: bool)
    | Num(n: Integral)
    | Str(s: string)
    | Arr(items: seq<Value>)
    | Obj(fields: seq<Field>)

  datatype Field = Field(key: string, val: Value)

  /** JavaScript's ToBoolean: what `if (v)`, `v || w` and `filter(Boolean)` test. */
  predicate Truthy(v: Value) {
    match v
    case Null => false
    case Undefined => false
    case Bool(b) => b
    case Num(n) => n != 0
    case Str(s) => s != ""
    case Arr(_) => true
    case Obj(_) => true
  }

  /** `v === null || v === undefined`, the test behind `??`. */
  predicate IsNullish(v: Value) {
    v.Null? || v.Undefined?
  }

  /** `typeof v === "object"`, which holds of null as well. */
  predicate IsTypeofObject(v: Value) {
    v.Null? || v.Arr? || v.Obj?
  }

  /** `typeof v === "object" && v !== null`: an array or a plain object. */
  predicate IsObjectLike(v: Value) {
    v.Arr? || v.Obj?
  }

  /** No field before index `i` is named `key`. */
  predicate AbsentBefore(fields: seq<Field>, key: string, i: int)
    requires i <= |fields|
  {
    forall j :: 0 <= j < i ==> fields[j].key != key
  }

  /** The value of the first field named `key`, or undefined when there is none. */
  function Lookup(fields: seq<Field>, key: string): (r: Value)
    ensures AbsentBefore(fields, key, |fields|) ==> r == Undefined
    ensures forall i :: 0 <= i < |fields| && fields[i].key == key && AbsentBefore(fields, key, i) ==>
                          r == fields[i].val
  {
    if fields == [] then Undefined
    else if fields[0].key == key then fields[0].val
    else
      var tail := fields[1..];
      var r := Lookup(tail, key);
      forall i | 0 <= i <= |fields| && AbsentBefore(fields, key, i) && i > 0
        ensures AbsentBefore(tail, key, i - 1)
      {
        forall j | 0 <= j < i - 1 ensures tail[j].key != key {
          assert tail[j] == fields[j + 1];
        }
      }
      assert forall i :: 1 <= i < |fields| ==> fields[i] == tail[i - 1];
      r
  }

  /**
   * Property access `v[name]` for a name that is not an array index: only a
   * plain object can hold such a property; everything else yields undefined.
   */
  function Get(v: Value, name: string): Value {
    if v.Obj? then Lookup(v.fields, name) else Undefined
  }

  /** The `in` operator, `name in v`, for a non-null object or array and a non-index name. */
  predicate HasKey(v: Value, name: string) {
    v.Obj? && exists i :: 0 <= i < |v.fields| && v.fields[i].key == name
  }

  /** The own enumerable properties of an object or array; an array's are its indices. */
  function Entries(v: Value): (r: seq<Field>)
    requires IsObjectLike(v)
    ensures v.Arr? ==> |r| == |v.items| &&
                       forall i :: 0 <= i < |r| ==> r[i] == Field(NatToString(i), v.items[i])
    ensures v.Obj? ==> r == v.fields
  {
    match v
    case Obj(fields) => fields
    case Arr(items) => seq(|items|, i requires 0 <= i < |items| => Field(NatToString(i), items[i]))
  }

  /** `Object.keys(v)`. */
  function Keys(v: Value): (r: seq<string>)
    requires IsObjectLike(v)
    ensures |r| == |Entries(v)| && forall i :: 0 <= i < |r| ==> r[i] == Entries(v)[i].key
  {
    var entries := Entries(v);
    seq(|entries|, i requires 0 <= i < |entries| => entries[i].key)
  }

  /** `parts.join(sep)`. */
  function Join(parts: seq<string>, sep: string): string {
    if parts == [] then ""
    else if |parts| == 1 then parts[0]
    else parts[0] + sep + Join(parts[1..], sep)
  }

  /** `needle` occurs in `haystack` starting at index `i`. */
  predicate OccursAt(haystack: string, needle: string, i: int) {
    0 <= i <= |haystack| - |needle| && haystack[i..i + |needle|] == needle
  }

  /** `haystack.includes(needle)`. */
  predicate Includes(haystack: string, needle: string) {
    exists i | 0 <= i <= |haystack| - |needle| :: OccursAt(haystack, needle, i)
  }

  predicate IsDigit(c: char) {
    '0' <= c <= '9'
  }

  function DigitChar(d: nat): (c: char)
    requires d < 10
    ensures IsDigit(c) && (c as int) - ('0' as int) == d
  {
    ['0', '1', '2', '3', '4', '5', '6', '7', '8', '9'][d]
  }

  /** The decimal numeral of a natural number, without leading zeros. */
  function NatToString(n: nat): (r: string)
    ensures |r| >= 1
    ensures forall i :: 0 <= i < |r| ==> IsDigit(r[i])
    ensures r[0] == '0' ==> n == 0
    // canonical form: a leading zero only in "0" itself
    ensures r[0] == '0' ==> |r| == 1
  {
    if n < 10 then [DigitChar(n)] else NatToString(n / 10) + [DigitChar(n % 10)]
  }

  /** The number a string of decimal digits denotes. */
  function DecimalValue(s: string): nat
    requires forall i :: 0 <= i < |s| ==> IsDigit(s[i])
  {
    if s == [] then 0
    else
      assert IsDigit(s[|s| - 1]);
      10 * DecimalValue(s[..|s| - 1]) + ((s[|s| - 1] as int) - ('0' as int))
  }

  /** The numeral `NatToString` prints denotes the number printed. */
  lemma {:induction false} DecimalRoundTrip(n: nat)
    ensures DecimalValue(NatToString(n)) == n
  {
    if n >= 10 {
      DecimalRoundTrip(n / 10);
      var s := NatToString(n);
      assert s[..|s| - 1] == NatToString(n / 10);
    }
  }

  /** `String(n)` for an integral number. */
  function NumberToString(n: Integral): (r: string)
    ensures |r| >= 1
    ensures n < 0 <==> r[0] == '-'
    // after the sign come decimal digits that denote the magnitude
    ensures var d := if n < 0 then r[1..] else r;
            (forall i :: 0 <= i < |d| ==> IsDigit(d[i])) && DecimalValue(d) == (if n < 0 then -n else n)
    ensures var d := if n < 0 then r[1..] else r; |d| >= 1 && (d[0] == '0' ==> |d| == 1)
  {
    if n < 0 then
      DecimalRoundTrip(-n);
      assert ("-" + NatToString(-n))[1..] == NatToString(-n);
      "-" + NatToString(-n)
    else
      DecimalRoundTrip(n);
      NatToString(n)
  }

  /** `String(v)` for a primitive value. */
  function PrimitiveToString(v: Value): string
    requires !IsObjectLike(v)
  {
    match v
    case Null => "null"
    case Undefined => "undefined"
    case Bool(b) => if b then "true" else "false"
    case Num(n) => NumberToString(n)
    case Str(s) => s
  }

  function HexDigit(d: nat): char
    requires d < 16
  {
    "0123456789abcdef"[d]
  }

  /** How `JSON.stringify` writes one character inside a string literal. */
  function EscapeChar(c: char): string {
    if c == '"' then "\\\""
    else if c == '\\' then "\\\\"
    else if c == '\U{8}' then "\\b"
    else if c == '\t' then "\\t"
    else if c == '\n' then "\\n"
    else if c == '\U{C}' then "\\f"
    else if c == '\r' then "\\r"
    else if (c as int) < 0x20 then "\\u00" + [HexDigit((c as int) / 16), HexDigit((c as int) % 16)]
    else [c]
  }

  function EscapeString(s: string): string {
    if s == [] then "" else EscapeChar(s[0]) + EscapeString(s[1..])
  }

  /** Text that `JSON.stringify` needs no escape for: no quote, backslash or control character. */
  predicate PlainText(s: string) {
    forall i :: 0 <= i < |s| ==> s[i] != '"' && s[i] != '\\' && (s[i] as int) >= 0x20
  }

  /** Plain text is written as it is between the quotes. */
  lemma {:induction false} EscapePlainText(s: string)
    requires PlainText(s)
    ensures EscapeString(s) == s
  {
    if s != [] {
      assert PlainText(s[1..]) by {
        assert forall i :: 1 <= i < |s| ==> s[1..][i - 1] == s[i];
      }
      EscapePlainText(s[1..]);
    }
  }

  /** A JSON string literal for `s`. */
  function Quote(s: string): string {
    "\"" + EscapeString(s) + "\""
  }

  /** The entries of `texts` whose field holds a value other than undefined. */
  function PresentMembers(fields: seq<Field>, texts: seq<string>): (r: seq<string>)
    requires |fields| == |texts|
    ensures |r| <= |fields|
    // with no undefined value, every member is kept
    ensures (forall i :: 0 <= i < |fields| ==> !fields[i].val.Undefined?) ==> r == texts
  {
    if fields == [] then []
    else if fields[0].val.Undefined? then PresentMembers(fields[1..], texts[1..])
    else [texts[0]] + PresentMembers(fields[1..], texts[1..])
  }

  /** The members of defined values are kept, and only those. */
  lemma {:induction false} PresentMembersKeepsDefined(fields: seq<Field>, texts: seq<string>)
    requires |fields| == |texts|
    ensures forall i :: 0 <= i < |fields| && !fields[i].val.Undefined? ==> texts[i] in PresentMembers(fields, texts)
    ensures forall x :: x in PresentMembers(fields, texts) ==>
              exists i :: 0 <= i < |fields| && !fields[i].val.Undefined? && texts[i] == x
  {
    if fields != [] {
      PresentMembersKeepsDefined(fields[1..], texts[1..]);
      assert forall i :: 1 <= i < |fields| ==> fields[i] == fields[1..][i - 1] && texts[i] == texts[1..][i - 1];
    }
  }

  /**
   * `JSON.stringify(v)` for any value but undefined (for which it returns
   * undefined, not a string). Inside an array undefined becomes null; an
   * object's undefined-valued properties are omitted.
   */
  function Stringify(v: Value): (r: string)
    requires !v.Undefined?
    ensures v.Arr? ==> |r| >= 2 && r[0] == '[' && r[|r| - 1] == ']'
    ensures v.Obj? ==> |r| >= 2 && r[0] == '{' && r[|r| - 1] == '}'
    decreases v
  {
    match v
    case Null => "null"
    case Bool(b) => if b then "true" else "false"
    case Num(n) => NumberToString(n)
    case Str(s) => Quote(s)
    case Arr(items) =>
      var texts := seq(|items|, i requires 0 <= i < |items| =>
        if items[i].Undefined? then "null" else Stringify(items[i]));
      "[" + Join(texts, ",") + "]"
    case Obj(fields) =>
      var texts := seq(|fields|, i requires 0 <= i < |fields| =>
        if fields[i].val.Undefined? then "" else Quote(fields[i].key) + ":" + Stringify(fields[i].val));
      "{" + Join(PresentMembers(fields, texts), ",") + "}"
  }
}

=== FILE: result_view.dfy ===
/** The value-to-text helper of components/result-view.tsx. */
module ResultView {
  import opened JsValue

  /**
   * `getReason(reason)`: a non-null object or array shows its `text`
   * property unless that is null or undefined, and its JSON otherwise;
   * anything else shows as `String(reason)`. The helper hands back the
   * `text` property itself, so the result need not be a string.
   */
  function GetReason(reason: Value): (r: Value)
    // only an object's own non-nullish `text` is passed through as it is; all else is text
    ensures !r.Str? ==> IsObjectLike(reason) && r == Get(reason, "text") && !IsNullish(r)
    // `??` keeps a `text` that is present, even the empty string
    ensures IsObjectLike(reason) && !IsNullish(Get(reason, "text")) ==> r == Get(reason, "text")
    ensures IsObjectLike(reason) && IsNullish(Get(reason, "text")) ==> r == Str(Stringify(reason))
    // null is not taken for an object
    ensures reason == Null ==> r == Str("null")
    ensures reason == Undefined ==> r == Str("undefined")
    ensures reason.Str? ==> r == reason
    ensures reason.Num? ==> r == Str(NumberToString(reason.n))
    ensures reason.Bool? ==> r == Str(if reason.b then "true" else "false")
    // the shown text is empty only for an empty string or an empty `text`
    ensures r == Str("") ==> reason == Str("") || (IsObjectLike(reason) && Get(reason, "text") == Str(""))
  {
    if IsObjectLike(reason) then
      var text := Get(reason, "text");
      if !IsNullish(text) then text else Str(Stringify(reason))
    else
      Str(PrimitiveToString(reason))
  }

  /** An object without `text` shows as its JSON: `{k: null}` becomes `{"k":null}`. */
  lemma ReasonWithoutTextIsJson(k: string)
    requires PlainText(k) && k != "text"
    ensures GetReason(Obj([Field(k, Null)])) == Str("{\"" + k + "\":null}")
  {
    var v := Obj([Field(k, Null)]);
    var texts := [Quote(k) + ":" + "null"];
    assert Stringify(v) == "{" + Quote(k) + ":" + "null" + "}" by {
      assert PresentMembers(v.fields, texts) == texts;
      assert Join(texts, ",") == Quote(k) + ":" + "null";
    }
    assert Quote(k) == "\"" + k + "\"" by {
      EscapePlainText(k);
    }
    assert Get(v, "text") == Undefined;
  }
}

=== FILE: scenario_filters.dfy ===
/**
 * The filter panel of components/scenario-filters.tsx: four single-choice
 * categories over fixed vocabularies, a toggle per option, "apply" (hand the
 * selections to the page, then reset and close) and "clear".
 */
module ScenarioFilters {
  import opened Base

  datatype Category = Companion | Theme | AgeGroup | TravelType

  /** The options offered per category. */
  function Options(c: Category): seq<string> {
    match c
    case Companion => ["나혼자", "아이와", "친구와", "부모님과", "연인과"]
    case Theme => ["여유로운", "볼거리가득", "미식탐방", "체험·액티비티"]
    case AgeGroup => ["10~20대", "30~40대", "50~60대", "70대 이상"]
    case TravelType => ["자유여행", "패키지"]
  }

  /** The filters handed to `onApplyFilters`; a category without a selection is absent. */
  datatype AppliedFilters = AppliedFilters(
    companion: Option<string>,
    theme: Option<string>,
    age: Option<string>,
    travelType: Option<string>)

  /** The component's state: the four selections ("" when none) and whether the panel is open. */
  datatype PanelState = PanelState(
    companion: string,
    theme: string,
    age: string,
    travelType: string,
    isOpen: bool)

  function Selected(s: PanelState, c: Category): string {
    match c
    case Companion => s.companion
    case Theme => s.theme
    case AgeGroup => s.age
    case TravelType => s.travelType
  }

  function FilterValue(f: AppliedFilters, c: Category): Option<string> {
    match c
    case Companion => f.companion
    case Theme => f.theme
    case AgeGroup => f.age
    case TravelType => f.travelType
  }

  /** A category holds nothing or exactly one of its options. */
  predicate SelectionValid(s: PanelState, c: Category) {
    Selected(s, c) == "" || Selected(s, c) in Options(c)
  }

  predicate ValidPanel(s: PanelState) {
    SelectionValid(s, Companion) && SelectionValid(s, Theme) &&
    SelectionValid(s, AgeGroup) && SelectionValid(s, TravelType)
  }

  /** An optional filter value that is set and truthy. */
  predicate IsSet(v: Option<string>) {
    v.Some? && v.value != ""
  }

  /** At least one filter is set (the test the page's heading makes). */
  predicate AnySet(f: AppliedFilters) {
    IsSet(f.companion) || IsSet(f.theme) || IsSet(f.age) || IsSet(f.travelType)
  }

  /** `selected || undefined`. */
  function OrAbsent(selected: string): (r: Option<string>)
    ensures r.None? <==> selected == ""
    ensures r.Some? ==> r.value == selected
  {
    if selected == "" then None else Some(selected)
  }

  /** The state every selection and `isOpen` start from. */
  const Initial: PanelState := PanelState("", "", "", "", false)

  /** Clicking `option` in category `c`: select it, or deselect it when it is already selected. */
  function Toggled(s: PanelState, c: Category, option: string): (r: PanelState)
    ensures Selected(r, c) == (if Selected(s, c) == option then "" else option)
    ensures forall d :: d != c ==> Selected(r, d) == Selected(s, d)
    ensures r.isOpen == s.isOpen
  {
    var v := if Selected(s, c) == option then "" else option;
    match c
    case Companion => s.(companion := v)
    case Theme => s.(theme := v)
    case AgeGroup => s.(age := v)
    case TravelType => s.(travelType := v)
  }

  /** The filters `handleApply` hands to the page. */
  function Emitted(s: PanelState): (f: AppliedFilters)
    ensures forall c :: FilterValue(f, c).None? <==> Selected(s, c) == ""
    ensures forall c :: FilterValue(f, c).Some? ==> FilterValue(f, c).value == Selected(s, c)
  {
    var f := AppliedFilters(OrAbsent(s.companion), OrAbsent(s.theme), OrAbsent(s.age), OrAbsent(s.travelType));
    assert forall c :: FilterValue(f, c) == OrAbsent(Selected(s, c));
    f
  }

  /** The state after a successful apply: nothing selected, panel closed. */
  function AfterApply(s: PanelState): (r: PanelState)
    ensures forall c :: Selected(r, c) == ""
    ensures !r.isOpen
  {
    Initial
  }

  /** The state after "clear": nothing selected, the panel as it was. */
  function Cleared(s: PanelState): (r: PanelState)
    ensures forall c :: Selected(r, c) == ""
    ensures r.isOpen == s.isOpen
  {
    Initial.(isOpen := s.isOpen)
  }

  /** The apply button's `disabled`: loading, or nothing selected. */
  function ApplyDisabled(s: PanelState, externalPending: bool, localPending: bool): (r: bool)
    // with nothing pending, the button is enabled exactly when applying would hand on a filter
    ensures !externalPending && !localPending ==> (r <==> !AnySet(Emitted(s)))
    ensures externalPending || localPending ==> r
  {
    (externalPending || localPending) ||
    (s.companion == "" && s.theme == "" && s.age == "" && s.travelType == "")
  }

  /** The header badge: "!" while any selection is made, "+" otherwise. */
  function Indicator(s: PanelState): (r: string)
    ensures r == "!" <==> AnySet(Emitted(s))
    ensures r == "!" || r == "+"
  {
    if s.companion != "" || s.theme != "" || s.age != "" || s.travelType != "" then "!" else "+"
  }

  /** Toggling keeps every category within its vocabulary. */
  lemma ToggledStaysValid(s: PanelState, c: Category, option: string)
    requires ValidPanel(s) && option in Options(c)
    ensures ValidPanel(Toggled(s, c, option))
  {
    var r := Toggled(s, c, option);
    assert forall d :: SelectionValid(r, d) by {
      forall d ensures SelectionValid(r, d) {
        if d != c {
          assert SelectionValid(s, d) by {
            match d
            case Companion =>
            case Theme =>
            case AgeGroup =>
            case TravelType =>
          }
        }
      }
    }
  }

  /** Clicking the same option twice restores a category that held nothing or that option. */
  lemma ToggleTwiceRestores(s: PanelState, c: Category, option: string)
    requires Selected(s, c) == "" || Selected(s, c) == option
    requires option != ""
    ensures Toggled(Toggled(s, c, option), c, option) == s
  {
    match c
    case Companion =>
    case Theme =>
    case AgeGroup =>
    case TravelType =>
  }

  /** After apply or clear, the badge is "+" and the apply button is disabled. */
  lemma ResetShowsNothingSelected(s: PanelState, externalPending: bool)
    ensures Indicator(AfterApply(s)) == "+" && ApplyDisabled(AfterApply(s), externalPending, false)
    ensures Indicator(Cleared(s)) == "+" && ApplyDisabled(Cleared(s), externalPending, false)
  {
  }

  /**
   * The filter panel component. Its `useState` cells are fields; the
   * `onApplyFilters` prop is either present or not for the component's life.
   */
  class FilterPanel {
    const hasApplyCallback: bool
    var selectedCompanion: string
    var selectedTheme: string
    var selectedAge: string
    var selectedTravelType: string
    /** The component's own pending flag; nothing ever sets it. */
    var isPending: bool
    var isOpen: bool

    function State(): PanelState
      reads this
    {
      PanelState(selectedCompanion, selectedTheme, selectedAge, selectedTravelType, isOpen)
    }

    ghost predicate Valid()
      reads this
    {
      ValidPanel(State()) && !isPending
    }

    constructor (hasApplyCallback: bool)
      ensures Valid() && State() == Initial
      ensures this.hasApplyCallback == hasApplyCallback
    {
      this.hasApplyCallback := hasApplyCallback;
      selectedCompanion, selectedTheme, selectedAge, selectedTravelType := "", "", "", "";
      isPending, isOpen := false, false;
    }

    /** The click handler of an option button. */
    method Toggle(c: Category, option: string)
      requires Valid() && option in Options(c)
      modifies this
      ensures Valid()
      ensures State() == Toggled(old(State()), c, option)
    {
      ToggledStaysValid(State(), c, option);
      match c
      case Companion =>
        selectedCompanion := if selectedCompanion == option then "" else option;
      case Theme =>
        selectedTheme := if selectedTheme == option then "" else option;
      case AgeGroup =>
        selectedAge := if selectedAge == option then "" else option;
      case TravelType =>
        selectedTravelType := if selectedTravelType == option then "" else option;
    }

    /** The header button: open or close the panel. */
    method ToggleOpen()
      requires Valid()
      modifies this
      ensures Valid()
      ensures State() == old(State()).(isOpen := !old(isOpen))
    {
      isOpen := !isOpen;
    }

    /** The cancel button: close the panel, keeping the selections. */
    method Cancel()
      requires Valid()
      modifies this
      ensures Valid()
      ensures State() == old(State()).(isOpen := false)
    {
      isOpen := false;
    }

    /** `handleApply`: returns the filters passed to `onApplyFilters`, if it is given. */
    method Apply() returns (emitted: Option<AppliedFilters>)
      requires Valid()
      modifies this
      ensures Valid()
      ensures hasApplyCallback ==> emitted == Some(Emitted(old(State()))) && State() == AfterApply(old(State()))
      ensures !hasApplyCallback ==> emitted == None && State() == old(State())
    {
      if hasApplyCallback {
        emitted := Some(AppliedFilters(
          if selectedCompanion == "" then None else Some(selectedCompanion),
          if selectedTheme == "" then None else Some(selectedTheme),
          if selectedAge == "" then None else Some(selectedAge),
          if selectedTravelType == "" then None else Some(selectedTravelType)));
        selectedCompanion, selectedTheme, selectedAge, selectedTravelType := "", "", "", "";
        isOpen := false;
      } else {
        emitted := None;
      }
    }

    /** `handleClear`. */
    method Clear()
      requires Valid()
      modifies this
      ensures Valid()
      ensures State() == Cleared(old(State()))
    {
      selectedCompanion, selectedTheme, selectedAge, selectedTravelType := "", "", "", "";
    }

    /** The apply button's `disabled`, given the `isPending` prop. */
    function IsApplyDisabled(externalPending: bool): (r: bool)
      reads this
      ensures Valid() ==> (r <==> externalPending || !AnySet(Emitted(State())))
    {
      ApplyDisabled(State(), externalPending, isPending)
    }

    /** The header badge. */
    function HeaderIndicator(): (r: string)
      reads this
      ensures r == "!" <==> AnySet(Emitted(State()))
      ensures r == "!" || r == "+"
    {
      Indicator(State())
    }
  }
}

=== FILE: scenarios_page.dfy ===
/**
 * The logic of app/scenarios/page.tsx: the `safeRender` display helper, the
 * emoji chosen for a scenario card, and the page state that selecting a
 * scenario and applying filters update.
 */
module ScenariosPage {
  import opened Base
  import opened JsValue
  import opened Actions
  import opened ResultView
  import opened ScenarioFilters

  // ---------------------------------------------------------------------------
  // safeRender
  // ---------------------------------------------------------------------------

  /** `keys.every(k => typeof value[k] !== 'object')`. */
  predicate FlatEntries(value: Value)
    requires IsObjectLike(value)
  {
    forall i :: 0 <= i < |Entries(value)| ==> !IsTypeofObject(Entries(value)[i].val)
  }

  /**
   * `safeRender(value)`: null and undefined show as nothing, strings as
   * themselves, numbers and booleans as `String(value)`. An object or array
   * shows its first truthy `text`, `summary` or `description`, returned as it
   * is; failing those, the keys of a non-empty object whose values are all
   * non-objects, joined by ", "; failing that, its JSON.
   */
  function SafeRender(value: Value): (r: Value)
    ensures IsNullish(value) ==> r == Str("")
    ensures value.Str? ==> r == value
    ensures value.Num? ==> r == Str(NumberToString(value.n))
    ensures value.Bool? ==> r == Str(if value.b then "true" else "false")
    // a truthy `text` wins over a truthy `summary`, which wins over a truthy `description`
    ensures IsObjectLike(value) && Truthy(Get(value, "text")) ==> r == Get(value, "text")
    ensures IsObjectLike(value) && !Truthy(Get(value, "text")) && Truthy(Get(value, "summary")) ==>
              r == Get(value, "summary")
    ensures (IsObjectLike(value) && !Truthy(Get(value, "text")) && !Truthy(Get(value, "summary")) &&
             Truthy(Get(value, "description"))) ==> r == Get(value, "description")
    // only such a property can make the result anything but a string
    ensures !r.Str? ==> IsObjectLike(value) && Truthy(r)
    // without those properties, the keys show when the object is flat and non-empty, else the JSON
    ensures (IsObjectLike(value) && !Truthy(Get(value, "text")) && !Truthy(Get(value, "summary")) &&
             !Truthy(Get(value, "description"))) ==>
              r == if |Keys(value)| > 0 && FlatEntries(value) then Str(Join(Keys(value), ", "))
                   else Str(Stringify(value))
  {
    if IsNullish(value) then Str("")
    else if value.Str? then value
    else if value.Num? || value.Bool? then Str(PrimitiveToString(value))
    else if Truthy(Get(value, "text")) then Get(value, "text")
    else if Truthy(Get(value, "summary")) then Get(value, "summary")
    else if Truthy(Get(value, "description")) then Get(value, "description")
    else
      var keys := Keys(value);
      if |keys| > 0 && FlatEntries(value) then Str(Join(keys, ", "))
      else Str(Stringify(value))
  }

  /** The indices "0", "1", ... of an array of length `n`, as `Object.keys` lists them. */
  function IndexKeys(n: nat): (r: seq<string>)
    ensures |r| == n
    // key i is a decimal numeral denoting i
    ensures forall i :: 0 <= i < n ==> (forall j :: 0 <= j < |r[i]| ==> IsDigit(r[i][j])) && DecimalValue(r[i]) == i
    ensures forall i :: 0 <= i < n ==> |r[i]| >= 1 && (r[i][0] == '0' ==> |r[i]| == 1)
  {
    var r := seq(n, i requires 0 <= i < n => NatToString(i));
    assert forall i | 0 <= i < n :: DecimalValue(r[i]) == i by {
      forall i | 0 <= i < n ensures DecimalValue(r[i]) == i {
        DecimalRoundTrip(i);
      }
    }
    r
  }

  /** Distinct indices have distinct keys. */
  lemma IndexKeysDistinct(n: nat)
    ensures forall i, j :: 0 <= i < j < n ==> IndexKeys(n)[i] != IndexKeys(n)[j]
  {
    forall i, j | 0 <= i < j < n ensures IndexKeys(n)[i] != IndexKeys(n)[j] {
      DecimalRoundTrip(i);
      DecimalRoundTrip(j);
    }
  }

  /** Arrays count as objects: a non-empty array of non-objects shows its indices. */
  lemma SafeRenderFlatArray(items: seq<Value>)
    requires |items| > 0
    requires forall i :: 0 <= i < |items| ==> !IsTypeofObject(items[i])
    ensures SafeRender(Arr(items)) == Str(Join(IndexKeys(|items|), ", "))
  {
    var v := Arr(items);
    assert Keys(v) == IndexKeys(|items|);
    assert FlatEntries(v);
  }

  /** A name `safeRender` looks for in preference to the keys. */
  predicate IsDisplayName(name: string) {
    name == "text" || name == "summary" || name == "description"
  }

  /** A flat two-property object without display names shows its two keys, in order. */
  lemma SafeRenderJoinsKeys(a: string, x: Value, b: string, y: Value)
    requires !IsDisplayName(a) && !IsDisplayName(b)
    requires !IsTypeofObject(x) && !IsTypeofObject(y)
    ensures SafeRender(Obj([Field(a, x), Field(b, y)])) == Str(a + ", " + b)
  {
    var v := Obj([Field(a, x), Field(b, y)]);
    assert Get(v, "text") == Undefined;
    assert Get(v, "summary") == Undefined;
    assert Get(v, "description") == Undefined;
    assert Keys(v) == [a, b];
    assert FlatEntries(v);
    assert [a, b][1..] == [b];
    assert Join([a, b], ", ") == a + ", " + b;
    assert SafeRender(v) == Str(Join(Keys(v), ", "));
  }

  /** So `{Italy: true, Switzerland: true}` shows as "Italy, Switzerland". */
  lemma SafeRenderCountries()
    ensures SafeRender(Obj([Field("Italy", Bool(true)), Field("Switzerland", Bool(true))])) == Str("Italy" + ", " + "Switzerland")
  {
    assert !IsDisplayName("Italy") by { assert "Italy"[0] != "text"[0] && "Italy"[0] != "summary"[0] && "Italy"[0] != "description"[0]; }
    assert !IsDisplayName("Switzerland") by {
      assert "Switzerland"[0] != "text"[0] && "Switzerland"[1] != "summary"[1] && "Switzerland"[0] != "description"[0];
    }
    SafeRenderJoinsKeys("Italy", Bool(true), "Switzerland", Bool(true));
  }

  /** An empty object or array has no keys to show and falls through to its JSON. */
  lemma SafeRenderEmptyContainers()
    ensures SafeRender(Obj([])) == Str("{}")
    ensures SafeRender(Arr([])) == Str("[]")
  {
    assert Keys(Obj([])) == [];
    assert Keys(Arr([])) == [];
  }

  /**
   * The two display helpers part ways on an empty `text`: `safeRender` skips
   * it as falsy and shows the key, `getReason` keeps it because it is not nullish.
   */
  lemma EmptyTextRendersDifferently()
    ensures SafeRender(Obj([Field("text", Str(""))])) == Str("text")
    ensures GetReason(Obj([Field("text", Str(""))])) == Str("")
  {
    var v := Obj([Field("text", Str(""))]);
    assert Get(v, "summary") == Undefined;
    assert Get(v, "description") == Undefined;
    assert Keys(v) == ["text"];
    assert FlatEntries(v);
  }

  // ---------------------------------------------------------------------------
  // getScenarioEmoji
  // ---------------------------------------------------------------------------

  /** One step of the emoji chain: any of the keywords selects the symbol. */
  datatype EmojiRule = EmojiRule(keywords: seq<string>, symbol: string)

  /** The chain in its order: budget, family, solo, healing, activity, schedule, food, couple, MZ. */
  const EmojiRules: seq<EmojiRule> := [
    EmojiRule(["만원", "가성비", "예산", "알뜰"], "\U{1F4B0}"),
    EmojiRule(["가족", "부모님", "아이"], "\U{1F468}\U{200D}\U{1F469}\U{200D}\U{1F467}\U{200D}\U{1F466}"),
    EmojiRule(["혼자", "솔로", "혼행"], "\U{1F392}"),
    EmojiRule(["힐링", "휴양", "휴가", "재충전"], "\U{1F334}"),
    EmojiRule(["액티비티", "모험", "스포츠"], "\U{1F3C4}"),
    EmojiRule(["박", "일정", "주말"], "\U{1F4C5}"),
    EmojiRule(["맛집", "미식", "먹방", "음식"], "\U{1F35C}"),
    EmojiRule(["커플", "연인", "허니문", "로맨틱"], "\U{1F491}"),
    EmojiRule(["MZ", "젊", "핫플"], "\U{1F389}")
  ]

  /** The airplane shown when no keyword occurs. */
  const DefaultEmoji: string := "\U{2708}\U{FE0F}"

  predicate RuleMatches(rule: EmojiRule, text: string) {
    exists k | 0 <= k < |rule.keywords| :: Includes(text, rule.keywords[k])
  }

  /** The symbol of the first rule whose keyword occurs in `text`, or the default. */
  function FirstMatch(rules: seq<EmojiRule>, text: string): (r: string)
    ensures r == DefaultEmoji || exists i :: 0 <= i < |rules| && r == rules[i].symbol
    ensures (forall i :: 0 <= i < |rules| ==> !RuleMatches(rules[i], text)) ==> r == DefaultEmoji
    ensures forall i :: 0 <= i < |rules| && RuleMatches(rules[i], text) ==>
              exists j :: 0 <= j <= i && RuleMatches(rules[j], text) && r == rules[j].symbol
  {
    if rules == [] then DefaultEmoji
    else if RuleMatches(rules[0], text) then rules[0].symbol
    else
      var r := FirstMatch(rules[1..], text);
      assert forall i :: 1 <= i < |rules| ==> rules[i] == rules[1..][i - 1];
      r
  }

  /** `getScenarioEmoji(text)`. */
  function GetScenarioEmoji(text: string): (r: string)
    ensures r == DefaultEmoji || exists i :: 0 <= i < |EmojiRules| && r == EmojiRules[i].symbol
  {
    FirstMatch(EmojiRules, text)
  }

  /** The rule that decides: the first one, in chain order, with a keyword in `text`. */
  lemma {:induction false} FirstMatchingRuleWins(rules: seq<EmojiRule>, text: string, i: nat)
    requires i < |rules| && RuleMatches(rules[i], text)
    requires forall j :: 0 <= j < i ==> !RuleMatches(rules[j], text)
    ensures FirstMatch(rules, text) == rules[i].symbol
  {
    if i > 0 {
      assert !RuleMatches(rules[0], text);
      assert rules[1..][i - 1] == rules[i];
      forall j | 0 <= j < i - 1 ensures !RuleMatches(rules[1..][j], text) {
        assert rules[1..][j] == rules[j + 1];
      }
      FirstMatchingRuleWins(rules[1..], text, i - 1);
    }
  }

  /** With symbols unlike the default, the default shows exactly when no rule matches. */
  lemma FirstMatchDefaultIff(rules: seq<EmojiRule>, text: string)
    requires forall i :: 0 <= i < |rules| ==> rules[i].symbol != DefaultEmoji
    ensures FirstMatch(rules, text) == DefaultEmoji <==>
            forall i :: 0 <= i < |rules| ==> !RuleMatches(rules[i], text)
  {
    if exists i :: 0 <= i < |rules| && RuleMatches(rules[i], text) {
      var i :| 0 <= i < |rules| && RuleMatches(rules[i], text);
      var j :| 0 <= j <= i && RuleMatches(rules[j], text) && FirstMatch(rules, text) == rules[j].symbol;
    }
  }

  /** The airplane shows exactly when no keyword of any rule occurs. */
  lemma DefaultIffNoKeyword(text: string)
    ensures GetScenarioEmoji(text) == DefaultEmoji <==>
            forall i :: 0 <= i < |EmojiRules| ==> !RuleMatches(EmojiRules[i], text)
  {
    assert |DefaultEmoji| == 2;
    forall i | 0 <= i < |EmojiRules| ensures EmojiRules[i].symbol != DefaultEmoji {
      assert |EmojiRules[i].symbol| != 2;
    }
    FirstMatchDefaultIff(EmojiRules, text);
  }

  /** The budget rule comes first: a text naming both 가성비 and 가족 gets the money bag. */
  lemma BudgetBeforeFamily(text: string)
    requires Includes(text, "가성비") && Includes(text, "가족")
    ensures GetScenarioEmoji(text) == "\U{1F4B0}"
  {
    assert EmojiRules[0].keywords[1] == "가성비";
    assert RuleMatches(EmojiRules[0], text);
    FirstMatchingRuleWins(EmojiRules, text, 0);
  }

  // ---------------------------------------------------------------------------
  // Scenario cards
  // ---------------------------------------------------------------------------

  /**
   * The text a scenario card reads as written: `scenario.text`, both for the
   * emoji and for the click handler.
   */
  function CardTextAsWritten(scenario: Value): (r: Value)
    ensures !scenario.Obj? ==> r == Undefined
  {
    Get(scenario, "text")
  }

  /**
   * The scenarios the action hands over are already projected to their
   * `text`, so the card reads `text` off a string and gets undefined; the
   * emoji helper then calls `includes` on undefined, which throws.
   */
  lemma ProjectedScenarioLosesText(fields: seq<Field>, i: nat, s: string)
    requires i < |fields| && fields[i] == Field("text", Str(s)) && AbsentBefore(fields, "text", i)
    ensures ScenarioItemText(Obj(fields)) == Str(s)
    ensures CardTextAsWritten(ScenarioItemText(Obj(fields))) == Undefined
  {
  }

  /** The card text that fits the projection: a string scenario is its own text. */
  function CardText(scenario: Value): (r: Value)
    ensures scenario.Str? ==> r == scenario
    ensures !scenario.Str? ==> r == Get(scenario, "text")
  {
    if scenario.Str? then scenario else Get(scenario, "text")
  }

  /**
   * With that reading, a projected scenario shows the emoji of its own text
   * and selecting it asks for that text, as for an unprojected item.
   */
  lemma ProjectedScenarioKeepsText(fields: seq<Field>, i: nat, s: string)
    requires i < |fields| && fields[i] == Field("text", Str(s)) && AbsentBefore(fields, "text", i)
    ensures CardText(ScenarioItemText(Obj(fields))) == Str(s)
    ensures CardText(ScenarioItemText(Obj(fields))) == CardText(Obj(fields))
  {
  }

  // ---------------------------------------------------------------------------
  // Page state
  // ---------------------------------------------------------------------------

  /** The order in which the heading lists the filters. */
  const TagOrder: seq<Category> := [Companion, Theme, AgeGroup, TravelType]

  /** How many of the first `k` categories, in heading order, are set. */
  function SetCount(f: AppliedFilters, k: nat): (n: nat)
    requires k <= |TagOrder|
    ensures n <= k
  {
    if k == 0 then 0
    else SetCount(f, k - 1) + (if IsSet(FilterValue(f, TagOrder[k - 1])) then 1 else 0)
  }

  /**
   * `[companion, theme, age, travelType].filter(Boolean)`: one tag per set
   * filter, and the value of the k-th category in heading order sits after
   * the tags of the set categories before it.
   */
  function Tags(f: AppliedFilters): (r: seq<string>)
    ensures |r| == SetCount(f, |TagOrder|)
    ensures forall k :: 0 <= k < |TagOrder| && IsSet(FilterValue(f, TagOrder[k])) ==>
              SetCount(f, k) < |r| && r[SetCount(f, k)] == FilterValue(f, TagOrder[k]).value
    ensures forall i :: 0 <= i < |r| ==> r[i] != ""
    ensures r == [] <==> !AnySet(f)
  {
    assert SetCount(f, 1) == SetCount(f, 0) + (if IsSet(f.companion) then 1 else 0);
    assert SetCount(f, 2) == SetCount(f, 1) + (if IsSet(f.theme) then 1 else 0);
    assert SetCount(f, 3) == SetCount(f, 2) + (if IsSet(f.age) then 1 else 0);
    assert SetCount(f, 4) == SetCount(f, 3) + (if IsSet(f.travelType) then 1 else 0);
    (if IsSet(f.companion) then [f.companion.value] else []) +
    (if IsSet(f.theme) then [f.theme.value] else []) +
    (if IsSet(f.age) then [f.age.value] else []) +
    (if IsSet(f.travelType) then [f.travelType.value] else [])
  }

  /** What the results heading shows. */
  datatype Heading =
    | ForScenario(scenario: string)   // "<scenario>" 맞춤 추천
    | ForTags(tags: seq<string>)      // #tag ... 관련 추천 정보
    | ForQuery(query: string)         // "<query>" 관련 추천 정보

  /** The heading: the selected scenario, else the applied filters, else the URL filters, else the query. */
  function TitleHeading(selected: Option<string>, applied: Option<AppliedFilters>, url: AppliedFilters, query: string)
    : (h: Heading)
    ensures h.ForTags? ==> h.tags != [] && forall i :: 0 <= i < |h.tags| ==> h.tags[i] != ""
    // a selected scenario heads the results whatever the filters
    ensures selected.Some? && selected.value != "" ==> h == ForScenario(selected.value)
    // applied filters, once any is set, take precedence over the URL's
    ensures !(selected.Some? && selected.value != "") && applied.Some? && AnySet(applied.value) ==>
              h == ForTags(Tags(applied.value))
    ensures !(selected.Some? && selected.value != "") && !(applied.Some? && AnySet(applied.value)) ==>
              h == if AnySet(url) then ForTags(Tags(url)) else ForQuery(query)
  {
    if selected.Some? && selected.value != "" then ForScenario(selected.value)
    else if applied.Some? && AnySet(applied.value) then ForTags(Tags(applied.value))
    else if AnySet(url) then ForTags(Tags(url))
    else ForQuery(query)
  }

  /**
   * What the filter panel hands over is what the heading shows: the
   * non-empty selections in category order.
   */
  lemma AppliedSelectionsBecomeTags(s: PanelState, url: AppliedFilters, query: string)
    requires ValidPanel(s)
    requires !ApplyDisabled(s, false, false)
    ensures TitleHeading(None, Some(Emitted(s)), url, query) ==
            ForTags((if s.companion != "" then [s.companion] else []) +
                    (if s.theme != "" then [s.theme] else []) +
                    (if s.age != "" then [s.age] else []) +
                    (if s.travelType != "" then [s.travelType] else []))
  {
    var f := Emitted(s);
    assert FilterValue(f, Companion) == f.companion && FilterValue(f, Theme) == f.theme;
    assert FilterValue(f, AgeGroup) == f.age && FilterValue(f, TravelType) == f.travelType;
  }

  /**
   * The page's React state. The URL's query and filters are fixed for the
   * page's life; the remaining fields are its `useState` cells.
   */
  class PageState {
    const query: string
    const urlFilters: AppliedFilters
    var selectedScenario: Option<string>
    var results: Value
    var initialData: Value
    var isLoadingResults: bool
    var isFilterPending: bool
    var appliedFilters: Option<AppliedFilters>

    constructor (query: string, urlFilters: AppliedFilters)
      ensures this.query == query && this.urlFilters == urlFilters
      ensures selectedScenario == None && results == Null && initialData == Null
      ensures !isLoadingResults && !isFilterPending && appliedFilters == None
    {
      this.query := query;
      this.urlFilters := urlFilters;
      selectedScenario := None;
      results := Null;
      initialData := Null;
      isLoadingResults := false;
      isFilterPending := false;
      appliedFilters := None;
    }

    /** Whether the results panel shows: not loading, and scenario results or dashboard results to show. */
    function ResultsVisible(): (r: bool)
      reads this
      ensures r ==> !isLoadingResults
      ensures !isLoadingResults && Truthy(results) ==> r
      ensures r && !Truthy(results) ==> Truthy(Get(initialData, "results")) && !(selectedScenario.Some? && selectedScenario.value != "")
      ensures (!isLoadingResults && Truthy(Get(initialData, "results")) &&
               !(selectedScenario.Some? && selectedScenario.value != "")) ==> r
    {
      !isLoadingResults &&
      (Truthy(results) ||
       (Truthy(Get(initialData, "results")) && !(selectedScenario.Some? && selectedScenario.value != "")))
    }

    /** What the panel reads when it shows: scenario results, or the `results` of an object. */
    lemma VisibleHasData()
      ensures ResultsVisible() ==> Truthy(results) || (initialData.Obj? && Truthy(Get(initialData, "results")))
    {
    }

    function Heading(): Heading
      reads this
    {
      TitleHeading(selectedScenario, appliedFilters, urlFilters, query)
    }

    /**
     * `handleScenarioSelect(scenarioText)`, up to the awaited results: the
     * selected scenario is asked for, its results stored when the action
     * succeeds and kept as they were when it throws.
     */
    method SelectScenario(scenarioText: string, complete: Completer, parse: Parser)
      modifies this
      ensures old(selectedScenario) == Some(scenarioText) ==>
                selectedScenario == old(selectedScenario) && results == old(results) &&
                initialData == old(initialData) && isLoadingResults == old(isLoadingResults) &&
                isFilterPending == old(isFilterPending) && appliedFilters == old(appliedFilters)
      ensures old(selectedScenario) != Some(scenarioText) ==>
                var outcome := GetScenarioResults(query, scenarioText, complete, parse);
                && selectedScenario == Some(scenarioText)
                && results == (if outcome.Success? then outcome.value else old(results))
                && !isLoadingResults
                && initialData == old(initialData) && isFilterPending == old(isFilterPending)
                && appliedFilters == old(appliedFilters)
    {
      if selectedScenario == Some(scenarioText) {
        return;
      }
      selectedScenario := Some(scenarioText);
      isLoadingResults := true;
      var outcome := GetScenarioResults(query, scenarioText, complete, parse);
      if outcome.Success? {
        results := outcome.value;
      }
      isLoadingResults := false;
    }

    /**
     * `handleFilterApply(filters)`, up to the awaited dashboard call, whose
     * outcome is `dashboard` (None when it throws): the selection is dropped,
     * the filters are kept for the heading, and a truthy dashboard replaces
     * the initial data and clears the scenario results.
     */
    method ApplyFilters(filters: AppliedFilters, dashboard: Option<Value>)
      modifies this
      ensures selectedScenario == None && appliedFilters == Some(filters)
      ensures !isFilterPending && !isLoadingResults
      ensures dashboard.Some? && Truthy(dashboard.value) ==>
                results == Null && initialData == dashboard.value
      ensures !(dashboard.Some? && Truthy(dashboard.value)) ==>
                results == old(results) && initialData == old(initialData)
      ensures AnySet(filters) ==> Heading() == ForTags(Tags(filters))
      // a failed dashboard call leaves earlier scenario results on show, now under the filters' heading
      ensures dashboard.None? && Truthy(old(results)) ==> ResultsVisible() && selectedScenario == None
    {
      isFilterPending := true;
      isLoadingResults := true;
      selectedScenario := None;
      appliedFilters := Some(filters);
      if dashboard.Some? && Truthy(dashboard.value) {
        results := Null;
        initialData := dashboard.value;
      }
      isFilterPending := false;
      isLoadingResults := false;
    }
  }
}
